=== FILE: README.md ===
# Hunger and thirst as lazily decaying resources

A Dafny model of the core of the Terasology *Hunger* module. The module gives
players two resources, food (hunger) and water (thirst). Neither is ticked down
continuously. Each is stored as three things: a last known value, the game time
in milliseconds at which it was known, and a decay rate per second. The current
value is rebuilt on demand as `max(0, last - rate * (now - stamp) / 1000)`.

Every event that changes a resource first *commits* the rebuilt value:

- spawn refills it;
- deactivation freezes it;
- eating and drinking add the filling, capped at the capacity;
- a change of movement mode freezes water before switching its rate;
- the admin commands clamp a new level into range.

Starvation damage and the block on self-healing read the rebuilt food against
thresholds. Damage has a per-entity "next damage tick" gate.

The repository also holds an older snapshot, a tick-based hunger system. It
stores the current food directly and lowers it on a timer. That snapshot is
modelled separately (`LegacyHungerComponent`, `HungerSystem`) and is not merged
with the lazy model.

Modelling choices:

- Java `float` is `real`, so `0.01f` is exactly 1/100.
- `long` and `int` are `int`.
- The game clock is an explicit `now: int` parameter.
- An entity that may lack a component is an `Option` of the component record.
  Handlers that the engine only calls for entities with the component take the
  record itself.
- Every handler is a pure function from the old record to the new one.
- A command's reply text is modelled as an `Outcome` (`Absent`, `ClampedLow`,
  `ClampedHigh`, `Set`, `DefaultMax`) or a `Report`.

Files:

- `wrappers.dfy`: `Option`.
- `lazy_decay.dfy`: the shared rebuild arithmetic and its laws. These are:
  monotone decay, zero-delta freezes lose nothing, and after a rate switch only
  the new rate is charged.
- `hunger_component.dfy`, `thirst_component.dfy`: state records and defaults.
- `hunger_utils.dfy`, `hunger_and_thirst_utils.dfy`: the readings.
- `hunger_authority.dfy`, `thirst_authority.dfy`: the event handlers.
- `hunger_commands.dfy`, `hunger_client.dfy`: the commands and their client copies.
- `legacy_hunger_component.dfy`, `hunger_system.dfy`: the tick-based snapshot.

Behaviour worth noting:

- Eating and drinking cap the result at the capacity only. There is no lower
  clamp. A stored value above a lowered capacity is pulled *down* by eating
  (`HungerAuthority.EatingCanLowerFood`).
- `setMaxHunger` does not clamp the stored level
  (`HungerCommands.SetMaxKeepsLevelAboveCapacity`). So `lastCalculatedFood <=
  maxFoodCapacity` is not an invariant of the model.
- The damage gate moves to `now + healthDecreaseInterval`, not to the old gate
  plus the interval.
- The lazy hunger system only resets an existing component on spawn. It never
  creates one. Thirst does create one on first spawn.
- A clock running backwards is not rejected. The rebuild formula is total. The
  laws that need a forward clock (monotonicity, freeze transparency) take
  `t1 <= t2` as a precondition.
- The tick-based system compares food with its threshold inclusively (`<=`).
  The lazy system compares strictly (`<`).

## Model

| member | source | states |
|---|---|---|
| LazyDecay.Rebuild | src/main/java/org/terasology/hunger/HungerUtils.java:40-41 | The rebuilt value is never negative, is at least the stored value less the decay, and equals that difference whenever it is positive. |
| LazyDecay.RebuildAtStamp | src/main/java/org/terasology/hunger/HungerUtils.java:40-41 | Reading at the stamp itself gives the stored value floored at zero. |
| LazyDecay.RebuildAtMostStored | src/main/java/org/terasology/hunger/HungerUtils.java:40-41 | With rate >= 0 and now >= stamp, the reading never exceeds max(0, stored), and never exceeds a non-negative stored value. |
| LazyDecay.RebuildMonotone | src/main/java/org/terasology/hunger/HungerUtils.java:40-41 | With rate >= 0, a later reading is never larger than an earlier one. |
| LazyDecay.FreezeTransparent | src/main/java/org/terasology/hunger/HungerAuthoritySystem.java:124-125 | Committing the rebuilt value at a time and reading later gives the same value as never committing, while the rate is unchanged. |
| LazyDecay.LossAfterSwitch | src/main/java/org/terasology/hunger/ThirstAuthoritySystem.java:82-84 | After freezing under a new rate, the loss by a later time is exactly newRate * elapsed / 1000, unless the floor is reached. |
| HungerComponent.NewHungerReadsEmpty | src/main/java/org/terasology/hunger/component/HungerComponent.java:31-33 | A fresh component, with stored food 0 at time 0, reads 0 at any time from 0 on until spawn fills it. |
| HungerComponent.DefaultStarvationTime | src/main/java/org/terasology/hunger/component/HungerComponent.java:29-50 | With the defaults (capacity 100, 0.01 per second, strict thresholds 1 and 50), a full entity starves exactly when more than 9 900 000 ms have passed, and has regeneration blocked exactly after 5 000 000 ms. |
| HungerComponent.NewHungerDefaults | src/main/java/org/terasology/hunger/component/HungerComponent.java:29-62 | Capacity 100, 0.01 per second, 15 damage every 30000 ms, loss threshold 1 < regeneration threshold 50 < capacity, and food, stamp and damage gate 0. |
| ThirstComponent.NewThirstDefaults | src/main/java/org/terasology/hunger/component/ThirstComponent.java:29-47 | Capacity 100, normal rate 0.05 strictly below sprint rate 0.2, a fresh component uses the normal rate, and it reads empty from time 0 on. |
| ThirstComponent.SprintDrainsFaster | src/main/java/org/terasology/hunger/component/ThirstComponent.java:38-47 | From the same stored water, the sprint rate never leaves more than the normal rate, and leaves strictly less once time has passed above the floor. |
| HungerUtils.GetHungerForEntity | src/main/java/org/terasology/hunger/HungerUtils.java:33-42 | No component reads 0. A component reads the shared rebuilt value. The result is never negative. |
| HungerUtils.HungerAtStamp | src/main/java/org/terasology/hunger/HungerUtils.java:39-41 | At now == lastCalculationTime the reading is max(0, lastCalculatedFood). |
| HungerUtils.HungerAtMostStored | src/main/java/org/terasology/hunger/HungerUtils.java:39-41 | With rate >= 0 and now >= stamp, the reading is at most the stored food (floored at zero). |
| HungerUtils.HungerMonotone | src/main/java/org/terasology/hunger/HungerUtils.java:33-42 | With rate >= 0, hunger read later is never larger, with or without a component. |
| HungerUtils.HungerExample | src/main/java/org/terasology/hunger/HungerUtils.java:39-41 | 100 stored at 0 with 1 per second reads 95 after 5000 ms. |
| HungerAndThirstUtils.GetHungerForEntity | src/main/java/org/terasology/hunger/HungerAndThirstUtils.java:31-40 | No component reads 0, and the result is never negative. |
| HungerAndThirstUtils.HungerReadingsAgree | src/main/java/org/terasology/hunger/HungerAndThirstUtils.java:31-40 | This hunger reading equals the hunger-only reading for every entity and time. |
| HungerAndThirstUtils.GetThirstForEntity | src/main/java/org/terasology/hunger/HungerAndThirstUtils.java:42-51 | No component reads 0. A component reads the stored water less the decay at the current rate, floored at 0. |
| HungerAndThirstUtils.ThirstAtStamp | src/main/java/org/terasology/hunger/HungerAndThirstUtils.java:48-50 | Thirst read at the stamp is max(0, lastCalculatedWater). |
| HungerAndThirstUtils.ThirstMonotone | src/main/java/org/terasology/hunger/HungerAndThirstUtils.java:48-50 | With waterDecayPerSecond >= 0, thirst read later is never larger. |
| HungerAndThirstUtils.CurrentRateCoversWholeSpan | src/main/java/org/terasology/hunger/HungerAndThirstUtils.java:49-50 | The current rate is charged for the whole span since the stamp. Two rates give readings that differ by (difference of rates) * span / 1000. |
| HungerAuthority.UpdateEntity | src/main/java/org/terasology/hunger/HungerAuthoritySystem.java:75-83 | Damage of healthDecreaseAmount is sent iff rebuilt food < healthLossThreshold and now >= the gate. The gate then becomes now + interval, and otherwise nothing changes. |
| HungerAuthority.Update | src/main/java/org/terasology/hunger/HungerAuthoritySystem.java:72-85 | Over all entities with hunger, each is gated independently. Only an entity's gate time can change, and only when it is damaged. |
| HungerAuthority.NoDoubleDamage | src/main/java/org/terasology/hunger/HungerAuthoritySystem.java:79-81 | With a positive interval, a second update at the same time sends no damage. |
| HungerAuthority.ZeroThresholdNeverDamages | src/main/java/org/terasology/hunger/HungerAuthoritySystem.java:78 | A loss threshold of 0 or below never lets damage through. |
| HungerAuthority.DamageCadenceExample | src/main/java/org/terasology/hunger/HungerAuthoritySystem.java:78-81 | Threshold 15, interval 30000, food 14 and gate 30000: one damage of 15 at 30000, the gate moves to 60000, and nothing is sent before that. |
| HungerAuthority.OnHealthRegen | src/main/java/org/terasology/hunger/HungerAuthoritySystem.java:94-100 | A heal is cancelled iff it is self-instigated and rebuilt food < healthStopRegenThreshold. Others' heals are never cancelled. |
| HungerAuthority.SpawnedEntityRegenerates | src/main/java/org/terasology/hunger/HungerAuthoritySystem.java:96-99 | Right after a spawn, a self-heal passes whenever the capacity reaches the regeneration threshold. |
| HungerAuthority.OnPlayerSpawn | src/main/java/org/terasology/hunger/HungerAuthoritySystem.java:109-114 | Spawn stores exactly the capacity as the food, stamped now, and changes nothing else. With a non-negative capacity, the reading at now therefore equals the capacity. |
| HungerAuthority.BeforeRemoval | src/main/java/org/terasology/hunger/HungerAuthoritySystem.java:123-127 | Deactivation stores exactly the food rebuilt at now, stamped now, and changes nothing else. So the reading at now is the same before and after. |
| HungerAuthority.DeactivationsLoseNoDecay | src/main/java/org/terasology/hunger/HungerAuthoritySystem.java:123-127 | Any series of deactivations at ordered times up to now, with rate >= 0, leaves the reading at now exactly as without them. |
| HungerAuthority.FoodConsumed | src/main/java/org/terasology/hunger/HungerAuthoritySystem.java:136-150 | Without hunger nothing changes. Otherwise the stored food becomes min(capacity, rebuilt + filling), stamped now, and nothing else changes. |
| HungerAuthority.EatingStaysInRange | src/main/java/org/terasology/hunger/HungerAuthoritySystem.java:141-142 | With filling >= 0 and capacity >= 0, food after eating is in [0, capacity] and reads as stored. Eating never lowers food that was within capacity. |
| HungerAuthority.EatingSaturates | src/main/java/org/terasology/hunger/HungerAuthoritySystem.java:141 | Eating a non-negative filling at capacity leaves the food at capacity. |
| HungerAuthority.EatingCanLowerFood | src/main/java/org/terasology/hunger/HungerAuthoritySystem.java:141 | Stored 80 over a capacity of 50: eating commits 50. |
| HungerAuthority.EatingScenario | src/main/java/org/terasology/hunger/HungerAuthoritySystem.java:139-142 | Capacity 100, full at 0, 1 per second: reads 95 at 5000. Eating 10 commits 100 stamped 5000, which reads 95 at 10000. |
| ThirstAuthority.OnPlayerRespawn | src/main/java/org/terasology/hunger/ThirstAuthoritySystem.java:41-46 | Respawn stores exactly the capacity as the water, stamped now, and changes nothing else. With a non-negative capacity, the reading at now therefore equals the capacity. |
| ThirstAuthority.OnPlayerFirstSpawn | src/main/java/org/terasology/hunger/ThirstAuthoritySystem.java:49-56 | An existing component is untouched. Otherwise a default component is added, full at now. |
| ThirstAuthority.SpawnHandlersCommute | src/main/java/org/terasology/hunger/ThirstAuthoritySystem.java:40-56 | Both spawn handlers run on one spawn. Either order leaves the same thirst, full at now. |
| ThirstAuthority.BeforeRemoval | src/main/java/org/terasology/hunger/ThirstAuthoritySystem.java:59-63 | Deactivation stores exactly the water rebuilt at now, stamped now, and changes nothing else. So the reading at now is unchanged. |
| ThirstAuthority.DrinkConsumed | src/main/java/org/terasology/hunger/ThirstAuthoritySystem.java:66-75 | Without thirst nothing changes. Otherwise the water becomes min(capacity, rebuilt + filling), stamped now. |
| ThirstAuthority.DrinkingStaysInRange | src/main/java/org/terasology/hunger/ThirstAuthoritySystem.java:71 | With filling >= 0 and capacity >= 0, water after drinking is in [0, capacity], and water at capacity stays at capacity. |
| ThirstAuthority.TargetRate | src/main/java/org/terasology/hunger/ThirstAuthoritySystem.java:79 | Running asks for the sprint rate, otherwise the normal rate. |
| ThirstAuthority.CharacterMoved | src/main/java/org/terasology/hunger/ThirstAuthoritySystem.java:78-87 | If the target rate equals the current rate, nothing changes. Otherwise the water is frozen at now and the rate is set to the target. |
| ThirstAuthority.SwitchChargesOnlyNewRate | src/main/java/org/terasology/hunger/ThirstAuthoritySystem.java:80-84 | After a movement event at now, any later reading is the water as of now less the new rate over the time since now only. |
| ThirstAuthority.FreezeMatters | src/main/java/org/terasology/hunger/ThirstAuthoritySystem.java:82-84 | Switching the rate without the freeze would charge the sprint rate retroactively (98.4 rather than 99.45 at 8000). |
| ThirstAuthority.SwitchLossExample | src/main/java/org/terasology/hunger/ThirstAuthoritySystem.java:79-84 | A switch from 0.05 to 0.2 at 7000 loses exactly 0.2 by 8000. |
| HungerCommands.ShowHunger | src/main/java/org/terasology/hunger/HungerCommands.java:45-53 | Reports the rebuilt food (never negative) and the capacity, or no hunger. It returns no state. |
| HungerCommands.SetHunger | src/main/java/org/terasology/hunger/HungerCommands.java:63-85 | Without hunger nothing changes. Negative requests store 0, requests above capacity store the capacity, and others are stored exactly, all stamped now. |
| HungerCommands.SetHungerInRange | src/main/java/org/terasology/hunger/HungerCommands.java:69-84 | With capacity >= 0 the stored food is in [0, capacity], and the query right after reports it. An in-range request is reported exactly. |
| HungerCommands.SetHungerIdempotent | src/main/java/org/terasology/hunger/HungerCommands.java:69-84 | Repeating a set at the same time changes nothing further. |
| HungerCommands.SetMaxHunger | src/main/java/org/terasology/hunger/HungerCommands.java:96-110 | Without hunger nothing changes. A request <= 0 sets the capacity to 100, and others set it as requested. Only the capacity changes, and it ends positive. |
| HungerCommands.SetMaxKeepsLevelAboveCapacity | src/main/java/org/terasology/hunger/HungerCommands.java:101-109 | Lowering the capacity to 40 under a full 100 leaves 100 stored and reported. |
| HungerClient.HungerCheck | src/main/java/org/terasology/hunger/HungerClientSystem.java:60-68 | Reports exactly what the administrative query reports. |
| HungerClient.HungerSet | src/main/java/org/terasology/hunger/HungerClientSystem.java:77-99 | Gives exactly the administrative set's result for every input. With a non-negative capacity the stored food is within range. |
| HungerClient.HungerSetMax | src/main/java/org/terasology/hunger/HungerClientSystem.java:108-122 | Gives exactly the administrative capacity command's result for every input, and the stored food is unchanged. |
| LegacyHungerComponent.NewTickHungerDefaults | src/main/java/org/terasology/hunger/HungerComponent.java:29-69 | Food starts at the capacity of 100. It loses 5 food every 60000 ms and 15 health every 30000 ms. Both gates start at 0, and health loss is on with threshold 0. |
| HungerSystem.FoodTick | src/main/java/org/terasology/hunger/HungerSystem.java:65-71 | Before the gate nothing changes. At or after it, food becomes max(0, food - amount) and the gate becomes now + interval. |
| HungerSystem.HealthTick | src/main/java/org/terasology/hunger/HungerSystem.java:74-84 | Health drops by the amount, and the gate becomes now + interval, exactly when all hold: health present, loseHealth, food <= threshold, and now >= gate. Otherwise nothing changes. |
| HungerSystem.UpdateEntity | src/main/java/org/terasology/hunger/HungerSystem.java:61-85 | The food gate runs first. When the health gate fires on the already lowered food, health drops by exactly healthDecreaseAmount and the health gate becomes now + interval. Otherwise the entity is exactly the food-ticked one. Health never rises for a non-negative amount. |
| HungerSystem.Update | src/main/java/org/terasology/hunger/HungerSystem.java:60-86 | Every entity is updated on its own, and non-negative food stays non-negative. |
| HungerSystem.SameUpdateHealthCheck | src/main/java/org/terasology/hunger/HungerSystem.java:65-80 | Food 5 above threshold 0 drops to 0 and costs 15 health in the same update. |
| HungerSystem.ThresholdInclusive | src/main/java/org/terasology/hunger/HungerSystem.java:76 | Food exactly at the threshold costs health. |
| HungerSystem.RunKeepsBounds | src/main/java/org/terasology/hunger/HungerSystem.java:65-81 | Over any series of updates with non-negative amounts, food stays in [0, start] and health never rises. |
| HungerSystem.OnPlayerSpawn | src/main/java/org/terasology/hunger/HungerSystem.java:89-92 | With or without an existing component, spawn leaves exactly the new default component. |
| HungerSystem.FirstUpdateAfterSpawn | src/main/java/org/terasology/hunger/HungerSystem.java:65-71 | After a spawn, the first update at any time from 0 on lowers food to 95 and sets the next decrement a minute later. |
| HungerSystem.CheckHunger | src/main/java/org/terasology/hunger/HungerSystem.java:100-109 | Reports the stored food and capacity, or no hunger. It returns no state. |
| HungerSystem.CheckHungerAfterUpdates | src/main/java/org/terasology/hunger/HungerSystem.java:60-109 | After a spawn the query reports 100 of 100. After any series of updates it reports a level in [0, 100]. |

## Left out

- UI widgets and the HUD element added in `preBegin`: rendering only.
- Engine plumbing is not modelled. That covers entity-manager iteration order, `saveComponent`, event dispatch, logging, and dependency injection. The clock is a parameter.
- The `FoodConsumedEvent` sent after eating, and the `consume()` of the activation when the item no longer exists: event routing with no effect on hunger.
- `usedItem`: inventory-slot bookkeeping through the inventory manager, outside the resource model.
- `AffectHungerEvent` and a decay-modifier hook: no system shown uses them.
- The top-level `ThirstComponent` of the older snapshot is configuration read by no system. Its sprint-loss threshold, like `sprintLossThreshold` of the lazy thirst component, is enforced nowhere.
- `FoodComponent.filling` is a modifiable value of the engine. Filling is a plain `real` here.
- Spawning in the tick-based system replaces an existing component; the engine's error log for that case is not modelled.
- The `test` command and `initialise` of the tick-based system only log, and its `shutdown` does nothing.
- IEEE `float` rounding, NaN and signed zero: reals are exact. The `!=` rate comparison is real inequality.
- 32/64-bit integer wrap-around of `now + interval` and of health: integers are unbounded.
- Clock regression is neither detected nor rejected, as in the code.
- Within one handler, the code reads the game clock several times: once for the reading and once for the stamp, and up to four times in a tick-based update. The model assumes every clock read inside one handler returns the same game time `now`. `HungerAuthority.DeactivationsLoseNoDecay` and `ThirstAuthority.SwitchChargesOnlyNewRate` rely on this: a reading taken earlier than its stamp would drop decay.
- Command reply strings: replaced by the `Outcome` and `Report` values.
- The lookup of the sender's character through its client component: the lazy-model commands take the character's hunger directly. The tick-based `CheckHunger` takes the hunger of the calling client entity itself, as that query reads it without any lookup.

=== FILE: hunger_and_thirst_utils.dfy ===
/** Reading the current hunger and thirst of an entity; the thirst twin of the hunger reading. */
module HungerAndThirstUtils {
  import opened Wrappers
  import opened HungerComponent
  import opened ThirstComponent
  import LazyDecay
  import HungerUtils

  /** The food level as of `now`, computed as the hunger-only reading computes it. */
  function GetHungerForEntity(hunger: Option<Hunger>, now: int): (food: real)
    ensures food >= 0.0
    ensures hunger.None? ==> food == 0.0
  {
    match hunger
    case None => 0.0
    case Some(h) =>
      var foodDecay := h.foodDecayPerSecond * (now - h.lastCalculationTime) as real / 1000.0;
      LazyDecay.FloorZero(h.lastCalculatedFood - foodDecay)
  }

  /**
   The water level as of `now`: zero without a component, otherwise the stored
   water less the decay at the current rate since its stamp, floored at zero.
   */
  function GetThirstForEntity(thirst: Option<Thirst>, now: int): (water: real)
    ensures water >= 0.0
    ensures thirst.None? ==> water == 0.0
    ensures thirst.Some? ==> water == Water(thirst.value, now)
  {
    match thirst
    case None => 0.0
    case Some(t) =>
      var waterDecay := t.waterDecayPerSecond * (now - t.lastCalculationTime) as real / 1000.0;
      LazyDecay.FloorZero(t.lastCalculatedWater - waterDecay)
  }

  /** Both hunger readings agree on every entity at every time. */
  lemma HungerReadingsAgree(hunger: Option<Hunger>, now: int)
    ensures GetHungerForEntity(hunger, now) == HungerUtils.GetHungerForEntity(hunger, now)
  {
  }

  /** Reading thirst at the stamp gives the stored water floored at zero. */
  lemma ThirstAtStamp(t: Thirst)
    ensures GetThirstForEntity(Some(t), t.lastCalculationTime) == LazyDecay.FloorZero(t.lastCalculatedWater)
  {
    LazyDecay.RebuildAtStamp(t.lastCalculatedWater, t.lastCalculationTime, t.waterDecayPerSecond);
  }

  /** With a non-negative current rate, thirst read later is never larger than thirst read earlier. */
  lemma ThirstMonotone(thirst: Option<Thirst>, t1: int, t2: int)
    requires thirst.Some? ==> thirst.value.waterDecayPerSecond >= 0.0
    requires t1 <= t2
    ensures GetThirstForEntity(thirst, t2) <= GetThirstForEntity(thirst, t1)
  {
    if thirst.Some? {
      var t := thirst.value;
      LazyDecay.RebuildMonotone(t.lastCalculatedWater, t.lastCalculationTime, t.waterDecayPerSecond, t1, t2);
    }
  }

  /**
   The current rate is charged for the whole span since the stamp: for two
   components that differ only in their current rate, and while neither reading
   is floored, the readings differ by the rate difference times that whole span,
   however long ago the rate actually changed.
   */
  lemma CurrentRateCoversWholeSpan(t: Thirst, otherRate: real, now: int)
    requires GetThirstForEntity(Some(t), now) > 0.0
    requires GetThirstForEntity(Some(t.(waterDecayPerSecond := otherRate)), now) > 0.0
    ensures GetThirstForEntity(Some(t), now) - GetThirstForEntity(Some(t.(waterDecayPerSecond := otherRate)), now)
         == (otherRate - t.waterDecayPerSecond) * (now - t.lastCalculationTime) as real / 1000.0
  {
    var span := (now - t.lastCalculationTime) as real;
    assert otherRate * span - t.waterDecayPerSecond * span == (otherRate - t.waterDecayPerSecond) * span;
  }
}

=== FILE: hunger_authority.dfy ===
/**
 The authority-side hunger rules: the starvation damage gate, the regeneration
 block, and the events that commit a rebuilt food value (spawn, deactivation,
 eating). Every event takes the game clock `now` explicitly.
 */
module HungerAuthority {
  import opened Wrappers
  import opened HungerComponent
  import HungerUtils
  import LazyDecay

  type EntityId = int

  /** The rebuilt food value is below the loss threshold (strictly). */
  predicate Starving(h: Hunger, now: int)
  {
    HungerUtils.GetHungerForEntity(Some(h), now) < h.healthLossThreshold
  }

  /** One entity's share of an update: its new state and the damage sent to it, if any. */
  datatype DamageTick = DamageTick(hunger: Hunger, damage: Option<int>)

  /**
   The per-entity damage gate. Damage of `healthDecreaseAmount` is sent exactly
   when the entity is starving and the gate time has been reached; the gate is then
   moved to `now + healthDecreaseInterval`. Otherwise nothing changes.
   */
  function UpdateEntity(h: Hunger, now: int): (r: DamageTick)
    ensures r.damage.Some? <==> Starving(h, now) && now >= h.nextHealthDecreaseTick
    ensures r.damage.Some? ==> r.damage.value == h.healthDecreaseAmount
    ensures r.damage.Some? ==> r.hunger == h.(nextHealthDecreaseTick := now + h.healthDecreaseInterval)
    ensures r.damage.None? ==> r.hunger == h
  {
    if HungerUtils.GetHungerForEntity(Some(h), now) < h.healthLossThreshold then
      if now >= h.nextHealthDecreaseTick then
        DamageTick(h.(nextHealthDecreaseTick := now + h.healthDecreaseInterval), Some(h.healthDecreaseAmount))
      else
        DamageTick(h, None)
    else
      DamageTick(h, None)
  }

  /**
   The update pass over every entity that has hunger. Each entity is gated on its
   own: `damage[i]` is what entity `i` is sent, and only its gate time may change.
   */
  method Update(entities: seq<Hunger>, now: int) returns (next: seq<Hunger>, damage: seq<Option<int>>)
    ensures |next| == |entities| && |damage| == |entities|
    ensures forall i :: 0 <= i < |entities| ==>
      (damage[i].Some? <==> Starving(entities[i], now) && now >= entities[i].nextHealthDecreaseTick)
    ensures forall i :: 0 <= i < |entities| && damage[i].Some? ==>
      damage[i].value == entities[i].healthDecreaseAmount
      && next[i].nextHealthDecreaseTick == now + entities[i].healthDecreaseInterval
    ensures forall i :: 0 <= i < |entities| ==>
      next[i] == entities[i].(nextHealthDecreaseTick := next[i].nextHealthDecreaseTick)
    ensures forall i :: 0 <= i < |entities| && damage[i].None? ==> next[i] == entities[i]
  {
    next := [];
    damage := [];
    var k := 0;
    while k < |entities|
      invariant 0 <= k <= |entities|
      invariant |next| == k && |damage| == k
      invariant forall i :: 0 <= i < k ==>
        next[i] == UpdateEntity(entities[i], now).hunger && damage[i] == UpdateEntity(entities[i], now).damage
    {
      var tick := UpdateEntity(entities[k], now);
      next := next + [tick.hunger];
      damage := damage + [tick.damage];
      k := k + 1;
    }
  }

  /** With a positive interval, a second update at the same time sends no more damage. */
  lemma NoDoubleDamage(h: Hunger, now: int)
    requires h.healthDecreaseInterval > 0
    ensures UpdateEntity(UpdateEntity(h, now).hunger, now).damage.None?
  {
  }

  /** A loss threshold of zero or below switches damage off, since the rebuilt value is never negative. */
  lemma ZeroThresholdNeverDamages(h: Hunger, now: int)
    requires h.healthLossThreshold <= 0.0
    ensures UpdateEntity(h, now).damage.None?
  {
  }

  /**
   A worked cadence: a threshold of 15 with a 30000 ms interval, gate at 30000,
   an entity reading 14 there; the update at 30000 sends one damage and moves the
   gate to 60000, and an update before 60000 sends nothing.
   */
  lemma DamageCadenceExample(later: int)
    requires 30000 <= later < 60000
    ensures var h := NewHunger().(lastCalculatedFood := 14.0, lastCalculationTime := 30000,
                                  foodDecayPerSecond := 0.0, healthLossThreshold := 15.0,
                                  nextHealthDecreaseTick := 30000);
      var first := UpdateEntity(h, 30000);
      && first.damage == Some(15)
      && first.hunger.nextHealthDecreaseTick == 60000
      && UpdateEntity(first.hunger, later).damage.None?
  {
  }

  /**
   A heal is cancelled exactly when the entity heals itself and its rebuilt food
   is below the stop-regeneration threshold; heals from anyone else pass.
   */
  function OnHealthRegen(h: Hunger, instigator: EntityId, entity: EntityId, now: int): (cancelled: bool)
    ensures cancelled ==> instigator == entity
    ensures instigator == entity ==> (cancelled <==> HungerUtils.GetHungerForEntity(Some(h), now) < h.healthStopRegenThreshold)
  {
    instigator == entity && HungerUtils.GetHungerForEntity(Some(h), now) < h.healthStopRegenThreshold
  }

  /** A self-heal right after a spawn is allowed whenever the capacity reaches the threshold. */
  lemma SpawnedEntityRegenerates(h: Hunger, e: EntityId, now: int)
    requires h.maxFoodCapacity >= h.healthStopRegenThreshold
    ensures !OnHealthRegen(OnPlayerSpawn(h, now), e, e, now)
  {
  }

  /** Spawning fills the stored food to capacity, stamped now; nothing else changes. */
  function OnPlayerSpawn(h: Hunger, now: int): (r: Hunger)
    ensures r == h.(lastCalculatedFood := r.lastCalculatedFood, lastCalculationTime := now)
    ensures r.lastCalculatedFood == h.maxFoodCapacity
    ensures h.maxFoodCapacity >= 0.0 ==> HungerUtils.GetHungerForEntity(Some(r), now) == h.maxFoodCapacity
  {
    h.(lastCalculatedFood := h.maxFoodCapacity, lastCalculationTime := now)
  }

  /**
   Before deactivation the rebuilt value is committed, stamped now: reading at
   `now` gives the same value before and after, and nothing else changes.
   */
  function BeforeRemoval(h: Hunger, now: int): (r: Hunger)
    ensures r == h.(lastCalculatedFood := r.lastCalculatedFood, lastCalculationTime := now)
    ensures r.lastCalculatedFood == HungerUtils.GetHungerForEntity(Some(h), now)
    ensures HungerUtils.GetHungerForEntity(Some(r), now) == HungerUtils.GetHungerForEntity(Some(h), now)
  {
    h.(lastCalculatedFood := HungerUtils.GetHungerForEntity(Some(h), now), lastCalculationTime := now)
  }

  /** A series of deactivations at the given times, oldest first. */
  function DeactivateAt(h: Hunger, times: seq<int>): Hunger
    decreases |times|
  {
    if |times| == 0 then h else DeactivateAt(BeforeRemoval(h, times[0]), times[1..])
  }

  /** The times are in non-decreasing order and none is later than `now`. */
  predicate ClockOrdered(times: seq<int>, now: int)
  {
    && (forall i :: 0 <= i < |times| ==> times[i] <= now)
    && (forall i, j :: 0 <= i < j < |times| ==> times[i] <= times[j])
  }

  /**
   However many deactivations happen along the way, with a non-negative rate and a
   clock that never runs backwards no decay is lost or gained: the food read at
   `now` is what it would have been without them.
   */
  lemma {:induction false} DeactivationsLoseNoDecay(h: Hunger, times: seq<int>, now: int)
    requires h.foodDecayPerSecond >= 0.0
    requires ClockOrdered(times, now)
    ensures HungerUtils.GetHungerForEntity(Some(DeactivateAt(h, times)), now) == HungerUtils.GetHungerForEntity(Some(h), now)
    decreases |times|
  {
    if |times| > 0 {
      var h' := BeforeRemoval(h, times[0]);
      assert ClockOrdered(times[1..], now);
      DeactivationsLoseNoDecay(h', times[1..], now);
      LazyDecay.FreezeTransparent(h.lastCalculatedFood, h.lastCalculationTime, h.foodDecayPerSecond, times[0], now);
    }
  }

  /**
   Eating: a consumer with hunger gets `min(capacity, rebuilt food + filling)`,
   stamped now, with nothing else changed; a consumer without hunger is untouched.
   */
  function FoodConsumed(hunger: Option<Hunger>, filling: real, now: int): (r: Option<Hunger>)
    ensures hunger.None? <==> r.None?
    ensures r.Some? ==> r.value == hunger.value.(lastCalculatedFood := r.value.lastCalculatedFood, lastCalculationTime := now)
    ensures r.Some? ==> r.value.lastCalculatedFood <= hunger.value.maxFoodCapacity
    ensures r.Some? ==> r.value.lastCalculatedFood <= HungerUtils.GetHungerForEntity(hunger, now) + filling
    ensures r.Some? ==> (r.value.lastCalculatedFood == hunger.value.maxFoodCapacity
                         || r.value.lastCalculatedFood == HungerUtils.GetHungerForEntity(hunger, now) + filling)
  {
    match hunger
    case None => None
    case Some(h) =>
      var fed := HungerUtils.GetHungerForEntity(hunger, now) + filling;
      Some(h.(lastCalculatedFood := if h.maxFoodCapacity < fed then h.maxFoodCapacity else fed,
              lastCalculationTime := now))
  }

  /**
   With a non-negative filling and a non-negative capacity the stored food after
   eating lies in [0, capacity], and eating never lowers the food of an entity
   that was not above capacity.
   */
  lemma EatingStaysInRange(h: Hunger, filling: real, now: int)
    requires filling >= 0.0 && h.maxFoodCapacity >= 0.0
    ensures var r := FoodConsumed(Some(h), filling, now).value;
      && 0.0 <= r.lastCalculatedFood <= h.maxFoodCapacity
      && HungerUtils.GetHungerForEntity(Some(r), now) == r.lastCalculatedFood
      && (HungerUtils.GetHungerForEntity(Some(h), now) <= h.maxFoodCapacity ==>
            HungerUtils.GetHungerForEntity(Some(h), now) <= r.lastCalculatedFood)
  {
  }

  /** Eating with a non-negative filling at capacity leaves the food at capacity. */
  lemma EatingSaturates(h: Hunger, filling: real, now: int)
    requires filling >= 0.0
    requires HungerUtils.GetHungerForEntity(Some(h), now) == h.maxFoodCapacity
    ensures FoodConsumed(Some(h), filling, now).value.lastCalculatedFood == h.maxFoodCapacity
  {
  }

  /**
   Eating can lower the food: when the capacity was lowered below the stored
   value, eating anything commits the capacity instead of the higher reading.
   */
  lemma EatingCanLowerFood()
    ensures var h := NewHunger().(maxFoodCapacity := 50.0, lastCalculatedFood := 80.0);
      && HungerUtils.GetHungerForEntity(Some(h), 0) == 80.0
      && FoodConsumed(Some(h), 5.0, 0).value.lastCalculatedFood == 50.0
  {
  }

  /**
   The worked scenario: capacity 100 full at time 0 losing 1 per second reads 95
   at 5000; eating 10 then commits 100 stamped 5000, which reads 95 at 10000.
   */
  lemma EatingScenario()
    ensures var h := NewHunger().(lastCalculatedFood := 100.0, foodDecayPerSecond := 1.0);
      var fed := FoodConsumed(Some(h), 10.0, 5000);
      && HungerUtils.GetHungerForEntity(Some(h), 5000) == 95.0
      && fed.Some? && fed.value.lastCalculatedFood == 100.0 && fed.value.lastCalculationTime == 5000
      && HungerUtils.GetHungerForEntity(fed, 10000) == 95.0
  {
  }
}

=== FILE: hunger_client.dfy ===
/**
 The client-side copies of the hunger commands. They are written out again here,
 branch for branch as the client system writes them, and each is shown to give
 exactly the result of the corresponding administrative command.
 */
module HungerClient {
  import opened Wrappers
  import opened HungerComponent
  import HungerUtils
  import opened HungerCommands

  /** The client's level query: the rebuilt food and the capacity, or no hunger. */
  function HungerCheck(hunger: Option<Hunger>, now: int): (r: Report)
    ensures r == ShowHunger(hunger, now)
    ensures r.FoodLevel? ==> r.current >= 0.0
  {
    match hunger
    case None => NoHungerLevel
    case Some(h) => FoodLevel(HungerUtils.GetHungerForEntity(hunger, now), h.maxFoodCapacity)
  }

  /** The client's set command: clamps as the administrative one does, for every input. */
  function HungerSet(newFood: real, hunger: Option<Hunger>, now: int): (r: CommandResult)
    ensures r == SetHunger(hunger, newFood, now)
    ensures r.hunger.Some? && r.hunger.value.maxFoodCapacity >= 0.0 ==>
      0.0 <= r.hunger.value.lastCalculatedFood <= r.hunger.value.maxFoodCapacity
  {
    match hunger
    case None => CommandResult(None, Absent)
    case Some(h) =>
      if newFood < 0.0 then
        CommandResult(Some(h.(lastCalculatedFood := 0.0, lastCalculationTime := now)), ClampedLow)
      else if newFood > h.maxFoodCapacity then
        CommandResult(Some(h.(lastCalculatedFood := h.maxFoodCapacity, lastCalculationTime := now)), ClampedHigh)
      else
        CommandResult(Some(h.(lastCalculatedFood := newFood, lastCalculationTime := now)), Set)
  }

  /** The client's capacity command: falls back to 100 as the administrative one does, for every input. */
  function HungerSetMax(newMax: real, hunger: Option<Hunger>): (r: CommandResult)
    ensures r == SetMaxHunger(hunger, newMax)
    ensures r.hunger.Some? ==> r.hunger.value.lastCalculatedFood == hunger.value.lastCalculatedFood
  {
    match hunger
    case None => CommandResult(None, Absent)
    case Some(h) =>
      if newMax <= 0.0 then CommandResult(Some(h.(maxFoodCapacity := 100.0)), DefaultMax)
      else CommandResult(Some(h.(maxFoodCapacity := newMax)), Set)
  }
}

=== FILE: hunger_commands.dfy ===
/**
 The administrative hunger commands: read the level, set it (clamped into range),
 and set the capacity (with a fallback to the default). The reply text is
 modelled by which branch answered.
 */
module HungerCommands {
  import opened Wrappers
  import opened HungerComponent
  import HungerUtils

  /** Which reply a command gave. */
  datatype Outcome = Absent | ClampedLow | ClampedHigh | Set | DefaultMax

  /** A command's effect on the character's hunger, and its reply. */
  datatype CommandResult = CommandResult(hunger: Option<Hunger>, outcome: Outcome)

  /** What the level query reports. */
  datatype Report = NoHungerLevel | FoodLevel(current: real, max: real)

  /** The capacity a non-positive request falls back to. */
  const DefaultMaxFood: real := 100.0

  /**
   The level query reports the food rebuilt as of now and the capacity, or that
   there is no hunger; it returns no state, so it cannot change any.
   */
  function ShowHunger(hunger: Option<Hunger>, now: int): (r: Report)
    ensures hunger.None? <==> r.NoHungerLevel?
    ensures r.FoodLevel? ==> r.current == HungerUtils.GetHungerForEntity(hunger, now) && r.max == hunger.value.maxFoodCapacity
    ensures r.FoodLevel? ==> r.current >= 0.0
  {
    if hunger.Some? then FoodLevel(HungerUtils.GetHungerForEntity(hunger, now), hunger.value.maxFoodCapacity)
    else NoHungerLevel
  }

  /**
   Setting the level: below 0 stores 0, above the capacity stores the capacity,
   otherwise stores the request; each stamped now with nothing else changed.
   Without hunger nothing changes.
   */
  function SetHunger(hunger: Option<Hunger>, newFood: real, now: int): (r: CommandResult)
    ensures hunger.None? <==> r.outcome == Absent
    ensures r.outcome == Absent ==> r.hunger == hunger
    ensures r.outcome != Absent ==>
      && r.hunger.Some?
      && r.hunger.value == hunger.value.(lastCalculatedFood := r.hunger.value.lastCalculatedFood, lastCalculationTime := now)
    ensures r.outcome == ClampedLow <==> hunger.Some? && newFood < 0.0
    ensures r.outcome == ClampedLow ==> r.hunger.value.lastCalculatedFood == 0.0
    ensures r.outcome == ClampedHigh <==> hunger.Some? && 0.0 <= newFood && newFood > hunger.value.maxFoodCapacity
    ensures r.outcome == ClampedHigh ==> r.hunger.value.lastCalculatedFood == hunger.value.maxFoodCapacity
    ensures r.outcome == Set ==> r.hunger.value.lastCalculatedFood == newFood
    ensures r.outcome != DefaultMax
  {
    if hunger.None? then CommandResult(hunger, Absent)
    else
      var h := hunger.value;
      if newFood < 0.0 then
        CommandResult(Some(h.(lastCalculatedFood := 0.0, lastCalculationTime := now)), ClampedLow)
      else if newFood > h.maxFoodCapacity then
        CommandResult(Some(h.(lastCalculatedFood := h.maxFoodCapacity, lastCalculationTime := now)), ClampedHigh)
      else
        CommandResult(Some(h.(lastCalculatedFood := newFood, lastCalculationTime := now)), Set)
  }

  /**
   With a non-negative capacity, the level after a set lies in [0, capacity], and
   the query right after reports it back; an in-range request is reported exactly.
   */
  lemma SetHungerInRange(h: Hunger, newFood: real, now: int)
    requires h.maxFoodCapacity >= 0.0
    ensures var r := SetHunger(Some(h), newFood, now).hunger.value;
      && 0.0 <= r.lastCalculatedFood <= h.maxFoodCapacity
      && ShowHunger(Some(r), now) == FoodLevel(r.lastCalculatedFood, h.maxFoodCapacity)
      && (0.0 <= newFood <= h.maxFoodCapacity ==> ShowHunger(Some(r), now).current == newFood)
  {
  }

  /** Repeating a set at the same time changes nothing further. */
  lemma SetHungerIdempotent(hunger: Option<Hunger>, newFood: real, now: int)
    ensures var once := SetHunger(hunger, newFood, now).hunger;
      SetHunger(once, newFood, now).hunger == once
  {
  }

  /**
   Setting the capacity: a request of 0 or below falls back to 100, anything else
   is taken as is. The stored level and its stamp are not touched.
   */
  function SetMaxHunger(hunger: Option<Hunger>, newMax: real): (r: CommandResult)
    ensures hunger.None? <==> r.outcome == Absent
    ensures r.outcome == Absent ==> r.hunger == hunger
    ensures r.outcome != Absent ==>
      && r.hunger.Some?
      && r.hunger.value == hunger.value.(maxFoodCapacity := r.hunger.value.maxFoodCapacity)
      && r.hunger.value.maxFoodCapacity > 0.0
    ensures r.outcome == DefaultMax <==> hunger.Some? && newMax <= 0.0
    ensures r.outcome == DefaultMax ==> r.hunger.value.maxFoodCapacity == DefaultMaxFood
    ensures r.outcome == Set ==> r.hunger.value.maxFoodCapacity == newMax
    ensures r.outcome != ClampedLow && r.outcome != ClampedHigh
  {
    if hunger.None? then CommandResult(hunger, Absent)
    else
      var h := hunger.value;
      if newMax <= 0.0 then CommandResult(Some(h.(maxFoodCapacity := DefaultMaxFood)), DefaultMax)
      else CommandResult(Some(h.(maxFoodCapacity := newMax)), Set)
  }

  /**
   Lowering the capacity does not clamp the stored level: a full entity whose
   capacity is set from 100 to 40 still stores, and reads, 100.
   */
  lemma SetMaxKeepsLevelAboveCapacity(now: int)
    ensures var h := NewHunger().(lastCalculatedFood := 100.0, lastCalculationTime := now);
      var r := SetMaxHunger(Some(h), 40.0).hunger.value;
      && r.maxFoodCapacity == 40.0
      && ShowHunger(Some(r), now) == FoodLevel(100.0, 40.0)
  {
  }
}

=== FILE: hunger_component.dfy ===
/** The state record of the lazily decaying hunger resource, with its defaults. */
module HungerComponent {
  import LazyDecay

  /**
   Per-entity hunger. `lastCalculatedFood` is the food value as of
   `lastCalculationTime` (ms); the current value is rebuilt with
   `foodDecayPerSecond`. Damage is sent while the rebuilt value is below
   `healthLossThreshold`, no earlier than `nextHealthDecreaseTick`; self-healing is
   blocked below `healthStopRegenThreshold`.
   */
  datatype Hunger = Hunger(
    maxFoodCapacity: real,
    lastCalculatedFood: real,
    lastCalculationTime: int,
    foodDecayPerSecond: real,
    healthLossThreshold: real,
    healthStopRegenThreshold: real,
    healthDecreaseAmount: int,
    healthDecreaseInterval: int,
    nextHealthDecreaseTick: int)

  /** A freshly constructed component, before any spawn has filled it. */
  function NewHunger(): Hunger
  {
    Hunger(
      maxFoodCapacity := 100.0,
      lastCalculatedFood := 0.0,
      lastCalculationTime := 0,
      foodDecayPerSecond := 0.01,
      healthLossThreshold := 1.0,
      healthStopRegenThreshold := 50.0,
      healthDecreaseAmount := 15,
      healthDecreaseInterval := 30000,
      nextHealthDecreaseTick := 0)
  }

  /** The food value of `h` rebuilt as of `now`. */
  function Food(h: Hunger, now: int): real
  {
    LazyDecay.Rebuild(h.lastCalculatedFood, h.lastCalculationTime, h.foodDecayPerSecond, now)
  }

  /** A fresh component reads empty at every time from zero on, until a spawn fills it. */
  lemma NewHungerReadsEmpty(now: int)
    requires now >= 0
    ensures Food(NewHunger(), now) == 0.0
  {
  }

  /**
   With the default settings, an entity filled to the default capacity of 100 at
   `stamp` first drops below the default loss threshold of 1 once more than
   9 900 000 ms (99 units at 0.01 per second) have passed; the regeneration
   threshold of 50 is crossed after 5 000 000 ms.
   */
  lemma DefaultStarvationTime(stamp: int, now: int)
    ensures var h := NewHunger().(lastCalculatedFood := 100.0, lastCalculationTime := stamp);
      && (Food(h, now) < h.healthLossThreshold <==> now - stamp > 9900000)
      && (Food(h, now) < h.healthStopRegenThreshold <==> now - stamp > 5000000)
  {
    var h := NewHunger().(lastCalculatedFood := 100.0, lastCalculationTime := stamp);
    assert LazyDecay.Decay(h.foodDecayPerSecond, stamp, now) == (now - stamp) as real / 100000.0;
  }

  /**
   The defaults: capacity 100 and 0.01 per second; 15 damage every 30000 ms; loss
   threshold 1 and stop-regeneration threshold 50, ordered strictly inside the
   capacity; food, stamp and damage gate all 0 until a spawn.
   */
  lemma NewHungerDefaults()
    ensures var h := NewHunger();
      && h.maxFoodCapacity == 100.0 && h.foodDecayPerSecond == 0.01
      && h.healthLossThreshold == 1.0 && h.healthStopRegenThreshold == 50.0
      && h.lastCalculatedFood == 0.0 && h.lastCalculationTime == 0 && h.nextHealthDecreaseTick == 0
      && h.healthDecreaseAmount == 15 && h.healthDecreaseInterval == 30000
      && 0.0 < h.healthLossThreshold < h.healthStopRegenThreshold < h.maxFoodCapacity
      && h.foodDecayPerSecond > 0.0
      && h.healthDecreaseAmount > 0 && h.healthDecreaseInterval > 0
  {
  }
}

=== FILE: hunger_system.dfy ===
/**
 The older, tick-based hunger system: each update lowers the stored food when its
 gate is reached, then lowers health when the (already lowered) food is at or
 below the threshold and the health gate is reached. Every step takes `now`.
 */
module HungerSystem {
  import opened Wrappers
  import opened LegacyHungerComponent

  /** An entity of the tick model: its hunger, and its current health if it has any. */
  datatype Entity = Entity(hunger: TickHunger, health: Option<int>)

  /** The food gate: lower the food by the amount, never below zero, and move the gate. */
  function FoodTick(h: TickHunger, now: int): (r: TickHunger)
    ensures now < h.nextFoodDecreaseTick ==> r == h
    ensures now >= h.nextFoodDecreaseTick ==>
      && r == h.(currentFoodCapacity := r.currentFoodCapacity, nextFoodDecreaseTick := now + h.foodDecreaseInterval)
      && r.currentFoodCapacity >= 0.0
      && r.currentFoodCapacity >= h.currentFoodCapacity - h.foodDecreaseAmount
      && (r.currentFoodCapacity > 0.0 ==> r.currentFoodCapacity == h.currentFoodCapacity - h.foodDecreaseAmount)
  {
    if now >= h.nextFoodDecreaseTick then
      var lowered := h.currentFoodCapacity - h.foodDecreaseAmount;
      h.(currentFoodCapacity := if lowered < 0.0 then 0.0 else lowered,
         nextFoodDecreaseTick := now + h.foodDecreaseInterval)
    else
      h
  }

  /** The four conditions under which the health gate fires, all inclusive of the threshold. */
  predicate LosesHealth(e: Entity, now: int)
  {
    && e.health.Some?
    && e.hunger.loseHealth
    && e.hunger.currentFoodCapacity <= e.hunger.healthLossThreshold
    && now >= e.hunger.nextHealthDecreaseTick
  }

  /** The health gate: lower health by the amount and move the gate, or change nothing. */
  function HealthTick(e: Entity, now: int): (r: Entity)
    ensures !LosesHealth(e, now) ==> r == e
    ensures LosesHealth(e, now) ==>
      && r.hunger == e.hunger.(nextHealthDecreaseTick := now + e.hunger.healthDecreaseInterval)
      && r.health == Some(e.health.value - e.hunger.healthDecreaseAmount)
  {
    if e.health.Some? && e.hunger.loseHealth && e.hunger.currentFoodCapacity <= e.hunger.healthLossThreshold
       && now >= e.hunger.nextHealthDecreaseTick
    then
      Entity(e.hunger.(nextHealthDecreaseTick := now + e.hunger.healthDecreaseInterval),
             Some(e.health.value - e.hunger.healthDecreaseAmount))
    else
      e
  }

  /**
   One update of one entity: the food gate first, then the health gate, which
   sees the food as lowered by this very update.
   */
  function UpdateEntity(e: Entity, now: int): (r: Entity)
    ensures r.hunger.currentFoodCapacity == FoodTick(e.hunger, now).currentFoodCapacity
    ensures r.hunger.nextFoodDecreaseTick == FoodTick(e.hunger, now).nextFoodDecreaseTick
    ensures r.health.Some? <==> e.health.Some?
    ensures r.health != e.health <==>
      LosesHealth(Entity(FoodTick(e.hunger, now), e.health), now) && e.hunger.healthDecreaseAmount != 0
    ensures r.health.Some? && e.hunger.healthDecreaseAmount >= 0 ==> r.health.value <= e.health.value
    ensures LosesHealth(Entity(FoodTick(e.hunger, now), e.health), now) ==>
      && r.health == Some(e.health.value - e.hunger.healthDecreaseAmount)
      && r.hunger == FoodTick(e.hunger, now).(nextHealthDecreaseTick := now + e.hunger.healthDecreaseInterval)
    ensures !LosesHealth(Entity(FoodTick(e.hunger, now), e.health), now) ==>
      r == Entity(FoodTick(e.hunger, now), e.health)
  {
    HealthTick(Entity(FoodTick(e.hunger, now), e.health), now)
  }

  /** The update pass over every entity with hunger, each updated on its own. */
  method Update(entities: seq<Entity>, now: int) returns (next: seq<Entity>)
    ensures |next| == |entities|
    ensures forall i :: 0 <= i < |entities| ==> next[i] == UpdateEntity(entities[i], now)
    ensures forall i :: 0 <= i < |entities| && entities[i].hunger.currentFoodCapacity >= 0.0 ==>
      next[i].hunger.currentFoodCapacity >= 0.0
  {
    next := [];
    var k := 0;
    while k < |entities|
      invariant 0 <= k <= |entities|
      invariant |next| == k
      invariant forall i :: 0 <= i < k ==> next[i] == UpdateEntity(entities[i], now)
    {
      next := next + [UpdateEntity(entities[k], now)];
      k := k + 1;
    }
  }

  /**
   The health check sees this update's decrement: 5 food with a 5-point
   decrement and threshold 0 drops to 0 and costs 15 health in the same update,
   although the food before the update was above the threshold.
   */
  lemma SameUpdateHealthCheck()
    ensures var e := Entity(NewTickHunger().(currentFoodCapacity := 5.0), Some(100));
      var r := UpdateEntity(e, 0);
      && e.hunger.currentFoodCapacity > e.hunger.healthLossThreshold
      && r.hunger.currentFoodCapacity == 0.0
      && r.health == Some(85)
  {
  }

  /** The threshold is inclusive: food exactly at the threshold costs health. */
  lemma ThresholdInclusive(e: Entity, now: int)
    requires e.health.Some? && e.hunger.loseHealth
    requires now < e.hunger.nextFoodDecreaseTick && now >= e.hunger.nextHealthDecreaseTick
    requires e.hunger.currentFoodCapacity == e.hunger.healthLossThreshold
    ensures UpdateEntity(e, now).health == Some(e.health.value - e.hunger.healthDecreaseAmount)
  {
  }

  /** A series of updates at the given times, oldest first. */
  function Run(e: Entity, times: seq<int>): Entity
    decreases |times|
  {
    if |times| == 0 then e else Run(UpdateEntity(e, times[0]), times[1..])
  }

  /**
   Over any series of updates with non-negative amounts, food stays within
   [0, its starting value] and health never rises.
   */
  lemma {:induction false} RunKeepsBounds(e: Entity, times: seq<int>)
    requires e.hunger.foodDecreaseAmount >= 0.0 && e.hunger.healthDecreaseAmount >= 0
    requires e.hunger.currentFoodCapacity >= 0.0
    ensures var r := Run(e, times);
      && 0.0 <= r.hunger.currentFoodCapacity <= e.hunger.currentFoodCapacity
      && (r.health.Some? <==> e.health.Some?)
      && (r.health.Some? ==> r.health.value <= e.health.value)
      && r.hunger.foodDecreaseAmount == e.hunger.foodDecreaseAmount
      && r.hunger.healthDecreaseAmount == e.hunger.healthDecreaseAmount
    decreases |times|
  {
    if |times| > 0 {
      var e' := UpdateEntity(e, times[0]);
      RunKeepsBounds(e', times[1..]);
    }
  }

  /**
   Spawning attaches a new default component, whether the player had none or
   already had one (which it replaces); the player's health is not involved.
   */
  function OnPlayerSpawn(hunger: Option<TickHunger>): (r: TickHunger)
    ensures r == NewTickHunger()
  {
    NewTickHunger()
  }

  /**
   Right after a spawn, the first update at any time from zero on fires the food
   gate: the food drops to 95 and the next decrement is due a minute later; no
   health is lost.
   */
  lemma FirstUpdateAfterSpawn(hunger: Option<TickHunger>, health: Option<int>, now: int)
    requires now >= 0
    ensures var r := UpdateEntity(Entity(OnPlayerSpawn(hunger), health), now);
      && r.hunger.currentFoodCapacity == 95.0
      && r.hunger.nextFoodDecreaseTick == now + 60000
      && r.health == health
  {
  }

  /**
   What the level query reports. It is separate from the lazy model's report on
   purpose: the tick-based snapshot is kept apart from the lazy one, and this
   report carries the stored food, not a rebuilt value.
   */
  datatype Report = NoHungerLevel | FoodLevel(current: real, max: real)

  /** The level query reports the stored food and capacity as they are; it returns no state. */
  function CheckHunger(hunger: Option<TickHunger>): (r: Report)
    ensures hunger.None? <==> r.NoHungerLevel?
    ensures r.FoodLevel? ==> r == FoodLevel(hunger.value.currentFoodCapacity, hunger.value.maxFoodCapacity)
  {
    match hunger
    case None => NoHungerLevel
    case Some(h) => FoodLevel(h.currentFoodCapacity, h.maxFoodCapacity)
  }

  /**
   The query tracks the updates: right after a spawn it reports 100 of 100, and
   after any series of updates with non-negative amounts it reports a level
   between 0 and that starting level.
   */
  lemma CheckHungerAfterUpdates(hunger: Option<TickHunger>, health: Option<int>, times: seq<int>)
    ensures CheckHunger(Some(OnPlayerSpawn(hunger))) == FoodLevel(100.0, 100.0)
    ensures var r := CheckHunger(Some(Run(Entity(OnPlayerSpawn(hunger), health), times).hunger));
      r.FoodLevel? && 0.0 <= r.current <= 100.0
  {
    RunKeepsBounds(Entity(OnPlayerSpawn(hunger), health), times);
  }
}

=== FILE: hunger_utils.dfy ===
/** Reading the current hunger of an entity that may or may not carry a hunger component. */
module HungerUtils {
  import opened Wrappers
  import opened HungerComponent
  import LazyDecay

  /**
   The entity's food level as of `now`: zero without a component, otherwise the
   stored value less the decay since its stamp, floored at zero.
   */
  function GetHungerForEntity(hunger: Option<Hunger>, now: int): (food: real)
    ensures food >= 0.0
    ensures hunger.None? ==> food == 0.0
    ensures hunger.Some? ==> food == Food(hunger.value, now)
  {
    match hunger
    case None => 0.0
    case Some(h) =>
      var foodDecay := h.foodDecayPerSecond * (now - h.lastCalculationTime) as real / 1000.0;
      LazyDecay.FloorZero(h.lastCalculatedFood - foodDecay)
  }

  /** Reading at the stamp gives the stored value floored at zero. */
  lemma HungerAtStamp(h: Hunger)
    ensures GetHungerForEntity(Some(h), h.lastCalculationTime) == LazyDecay.FloorZero(h.lastCalculatedFood)
  {
    LazyDecay.RebuildAtStamp(h.lastCalculatedFood, h.lastCalculationTime, h.foodDecayPerSecond);
  }

  /** With a non-negative rate, a read after the stamp never exceeds the stored value. */
  lemma HungerAtMostStored(h: Hunger, now: int)
    requires h.foodDecayPerSecond >= 0.0 && h.lastCalculationTime <= now
    ensures GetHungerForEntity(Some(h), now) <= LazyDecay.FloorZero(h.lastCalculatedFood)
    ensures h.lastCalculatedFood >= 0.0 ==> GetHungerForEntity(Some(h), now) <= h.lastCalculatedFood
  {
    LazyDecay.RebuildAtMostStored(h.lastCalculatedFood, h.lastCalculationTime, h.foodDecayPerSecond, now);
  }

  /** With a non-negative rate, hunger read later is never larger than hunger read earlier. */
  lemma HungerMonotone(hunger: Option<Hunger>, t1: int, t2: int)
    requires hunger.Some? ==> hunger.value.foodDecayPerSecond >= 0.0
    requires t1 <= t2
    ensures GetHungerForEntity(hunger, t2) <= GetHungerForEntity(hunger, t1)
  {
    if hunger.Some? {
      var h := hunger.value;
      LazyDecay.RebuildMonotone(h.lastCalculatedFood, h.lastCalculationTime, h.foodDecayPerSecond, t1, t2);
    }
  }

  /** A worked reading: 100 stored at time 0, losing 1 per second, reads 95 after 5000 ms. */
  lemma HungerExample()
    ensures GetHungerForEntity(Some(NewHunger().(lastCalculatedFood := 100.0, foodDecayPerSecond := 1.0)), 5000) == 95.0
  {
  }
}

=== FILE: lazy_decay.dfy ===
/**
 The arithmetic behind every lazily decaying resource (food, water).

 A resource is stored as a last known value, the game time (milliseconds) at which
 it was known, and a loss rate in units per second. Its current value is never
 stored: it is rebuilt on demand and floored at zero. Java `float` is modelled as
 `real` and `long` as `int`.
 */
module LazyDecay {

  /** The amount lost between `stamp` and `now` at `rate` units per second. */
  function Decay(rate: real, stamp: int, now: int): real
  {
    rate * (now - stamp) as real / 1000.0
  }

  /** The larger of zero and `x`, as `Math.max(0, x)`. */
  function FloorZero(x: real): real
  {
    if x > 0.0 then x else 0.0
  }

  /** The value as of `now`, rebuilt from `last` known at `stamp`: never negative. */
  function Rebuild(last: real, stamp: int, rate: real, now: int): (v: real)
    ensures v >= 0.0
    ensures v >= last - Decay(rate, stamp, now)
    ensures v > 0.0 ==> v == last - Decay(rate, stamp, now)
  {
    FloorZero(last - Decay(rate, stamp, now))
  }

  /** Reading at the stamp itself loses nothing. */
  lemma RebuildAtStamp(last: real, stamp: int, rate: real)
    ensures Rebuild(last, stamp, rate, stamp) == FloorZero(last)
  {
  }

  /** A non-negative rate at a time after the stamp never yields more than was stored. */
  lemma RebuildAtMostStored(last: real, stamp: int, rate: real, now: int)
    requires rate >= 0.0 && stamp <= now
    ensures Rebuild(last, stamp, rate, now) <= FloorZero(last)
    ensures last >= 0.0 ==> Rebuild(last, stamp, rate, now) <= last
  {
    DecayNonNegative(rate, stamp, now);
  }

  /** A non-negative rate over a forward span loses a non-negative amount. */
  lemma DecayNonNegative(rate: real, stamp: int, now: int)
    requires rate >= 0.0 && stamp <= now
    ensures Decay(rate, stamp, now) >= 0.0
  {
    var span := (now - stamp) as real;
    assert span >= 0.0;
    assert rate * span >= 0.0;
  }

  /** Decay over consecutive spans adds up. */
  lemma DecaySplits(rate: real, stamp: int, mid: int, now: int)
    ensures Decay(rate, stamp, now) == Decay(rate, stamp, mid) + Decay(rate, mid, now)
  {
    var a := (mid - stamp) as real;
    var b := (now - mid) as real;
    assert (now - stamp) as real == a + b;
    assert rate * (a + b) == rate * a + rate * b;
  }

  /** With a non-negative rate the rebuilt value never grows as time advances. */
  lemma RebuildMonotone(last: real, stamp: int, rate: real, t1: int, t2: int)
    requires rate >= 0.0 && t1 <= t2
    ensures Rebuild(last, stamp, rate, t2) <= Rebuild(last, stamp, rate, t1)
  {
    DecaySplits(rate, stamp, t1, t2);
    DecayNonNegative(rate, t1, t2);
  }

  /**
   Committing the rebuilt value at `mid` and reading again later gives exactly what
   reading the uncommitted value would have given: freezing loses and gains nothing
   while the rate stays the same.
   */
  lemma FreezeTransparent(last: real, stamp: int, rate: real, mid: int, now: int)
    requires rate >= 0.0 && mid <= now
    ensures Rebuild(Rebuild(last, stamp, rate, mid), mid, rate, now) == Rebuild(last, stamp, rate, now)
  {
    DecaySplits(rate, stamp, mid, now);
    DecayNonNegative(rate, mid, now);
  }

  /**
   After a value is frozen at `mid` under a new rate, a later read has lost exactly
   `newRate * (now - mid) / 1000` from the frozen value, as long as that does not
   reach the zero floor; the old rate plays no part.
   */
  lemma LossAfterSwitch(frozen: real, mid: int, newRate: real, now: int)
    requires frozen >= Decay(newRate, mid, now)
    ensures frozen - Rebuild(frozen, mid, newRate, now) == newRate * (now - mid) as real / 1000.0
  {
  }
}

=== FILE: legacy_hunger_component.dfy ===
/** The state record of the older, tick-based hunger model, with its defaults. */
module LegacyHungerComponent {

  /**
   Tick-based hunger: `currentFoodCapacity` is stored directly and lowered by
   `foodDecreaseAmount` whenever the clock reaches `nextFoodDecreaseTick`; health
   is lowered by `healthDecreaseAmount` while the food is at or below
   `healthLossThreshold` and `loseHealth` is set, no earlier than
   `nextHealthDecreaseTick`.
   */
  datatype TickHunger = TickHunger(
    maxFoodCapacity: real,
    currentFoodCapacity: real,
    foodDecreaseAmount: real,
    foodDecreaseInterval: int,
    nextFoodDecreaseTick: int,
    loseHealth: bool,
    healthLossThreshold: real,
    healthDecreaseAmount: int,
    healthDecreaseInterval: int,
    nextHealthDecreaseTick: int)

  /** A freshly constructed component: full, with both gates open from time 0. */
  function NewTickHunger(): TickHunger
  {
    TickHunger(
      maxFoodCapacity := 100.0,
      currentFoodCapacity := 100.0,
      foodDecreaseAmount := 5.0,
      foodDecreaseInterval := 60000,
      nextFoodDecreaseTick := 0,
      loseHealth := true,
      healthLossThreshold := 0.0,
      healthDecreaseAmount := 15,
      healthDecreaseInterval := 30000,
      nextHealthDecreaseTick := 0)
  }

  /**
   The defaults: the food starts at the capacity of 100, 5 food is lost every
   60000 ms and 15 health every 30000 ms, both gates start open at 0, and health
   loss is on with a threshold of zero.
   */
  lemma NewTickHungerDefaults()
    ensures var h := NewTickHunger();
      && h.currentFoodCapacity == h.maxFoodCapacity == 100.0
      && h.foodDecreaseAmount == 5.0 && h.foodDecreaseInterval == 60000
      && h.healthDecreaseAmount == 15 && h.healthDecreaseInterval == 30000
      && h.nextFoodDecreaseTick == 0 && h.nextHealthDecreaseTick == 0
      && h.loseHealth && h.healthLossThreshold == 0.0
  {
  }
}

=== FILE: thirst_authority.dfy ===
/**
 The authority-side thirst rules: spawning fills the water, deactivation and
 drinking commit a rebuilt value, and a change of movement mode freezes the
 water before switching the decay rate. Every event takes the clock `now`.
 */
module ThirstAuthority {
  import opened Wrappers
  import opened ThirstComponent
  import HungerAndThirstUtils
  import LazyDecay

  /** Respawn of an entity with thirst: water back to capacity, stamped now; nothing else changes. */
  function OnPlayerRespawn(t: Thirst, now: int): (r: Thirst)
    ensures r == t.(lastCalculatedWater := r.lastCalculatedWater, lastCalculationTime := now)
    ensures r.lastCalculatedWater == t.maxWaterCapacity
    ensures t.maxWaterCapacity >= 0.0 ==> HungerAndThirstUtils.GetThirstForEntity(Some(r), now) == t.maxWaterCapacity
  {
    t.(lastCalculatedWater := t.maxWaterCapacity, lastCalculationTime := now)
  }

  /**
   First spawn: an entity without thirst gets a fresh default component, full as
   of now; an entity that already has thirst is left alone.
   */
  function OnPlayerFirstSpawn(thirst: Option<Thirst>, now: int): (r: Option<Thirst>)
    ensures r.Some?
    ensures thirst.Some? ==> r == thirst
    ensures thirst.None? ==> r.value == NewThirst().(lastCalculatedWater := r.value.lastCalculatedWater, lastCalculationTime := now)
    ensures thirst.None? ==> HungerAndThirstUtils.GetThirstForEntity(r, now) == r.value.maxWaterCapacity
  {
    if thirst.Some? then thirst
    else
      var created := NewThirst();
      Some(created.(lastCalculatedWater := created.maxWaterCapacity, lastCalculationTime := now))
  }

  /** The respawn handler only runs for entities that carry thirst. */
  function RespawnIfPresent(thirst: Option<Thirst>, now: int): Option<Thirst>
  {
    match thirst
    case None => None
    case Some(t) => Some(OnPlayerRespawn(t, now))
  }

  /**
   Both spawn handlers see the same spawn event; in whichever order they run, an
   entity ends with the same thirst, full as of now.
   */
  lemma SpawnHandlersCommute(thirst: Option<Thirst>, now: int)
    requires thirst.Some? ==> thirst.value.maxWaterCapacity >= 0.0
    ensures var a := RespawnIfPresent(OnPlayerFirstSpawn(thirst, now), now);
      var b := OnPlayerFirstSpawn(RespawnIfPresent(thirst, now), now);
      && a == b
      && a.Some? && HungerAndThirstUtils.GetThirstForEntity(a, now) == a.value.maxWaterCapacity
  {
  }

  /** Before deactivation the rebuilt water is committed, stamped now, with the reading unchanged. */
  function BeforeRemoval(t: Thirst, now: int): (r: Thirst)
    ensures r == t.(lastCalculatedWater := r.lastCalculatedWater, lastCalculationTime := now)
    ensures r.lastCalculatedWater == HungerAndThirstUtils.GetThirstForEntity(Some(t), now)
    ensures HungerAndThirstUtils.GetThirstForEntity(Some(r), now) == HungerAndThirstUtils.GetThirstForEntity(Some(t), now)
  {
    t.(lastCalculatedWater := HungerAndThirstUtils.GetThirstForEntity(Some(t), now), lastCalculationTime := now)
  }

  /**
   Drinking: a consumer with thirst gets `min(capacity, rebuilt water + filling)`,
   stamped now, with nothing else changed; a consumer without thirst is untouched.
   */
  function DrinkConsumed(thirst: Option<Thirst>, filling: real, now: int): (r: Option<Thirst>)
    ensures thirst.None? <==> r.None?
    ensures r.Some? ==> r.value == thirst.value.(lastCalculatedWater := r.value.lastCalculatedWater, lastCalculationTime := now)
    ensures r.Some? ==> r.value.lastCalculatedWater <= thirst.value.maxWaterCapacity
    ensures r.Some? ==> r.value.lastCalculatedWater <= HungerAndThirstUtils.GetThirstForEntity(thirst, now) + filling
    ensures r.Some? ==> (r.value.lastCalculatedWater == thirst.value.maxWaterCapacity
                         || r.value.lastCalculatedWater == HungerAndThirstUtils.GetThirstForEntity(thirst, now) + filling)
  {
    match thirst
    case None => None
    case Some(t) =>
      var drunk := HungerAndThirstUtils.GetThirstForEntity(thirst, now) + filling;
      Some(t.(lastCalculatedWater := if t.maxWaterCapacity < drunk then t.maxWaterCapacity else drunk,
              lastCalculationTime := now))
  }

  /** With a non-negative filling and capacity, water after drinking lies in [0, capacity]; at capacity it stays there. */
  lemma DrinkingStaysInRange(t: Thirst, filling: real, now: int)
    requires filling >= 0.0 && t.maxWaterCapacity >= 0.0
    ensures var r := DrinkConsumed(Some(t), filling, now).value;
      && 0.0 <= r.lastCalculatedWater <= t.maxWaterCapacity
      && (HungerAndThirstUtils.GetThirstForEntity(Some(t), now) == t.maxWaterCapacity ==>
            r.lastCalculatedWater == t.maxWaterCapacity)
  {
  }

  /** The rate movement asks for: the sprint rate when running, the normal rate otherwise. */
  function TargetRate(t: Thirst, running: bool): (rate: real)
    ensures running ==> rate == t.sprintDecayPerSecond
    ensures !running ==> rate == t.normalDecayPerSecond
  {
    if running then t.sprintDecayPerSecond else t.normalDecayPerSecond
  }

  /**
   A movement event. If the target rate equals the current rate nothing changes;
   otherwise the water is frozen at now (the reading at now is unchanged) and then
   the rate is switched to the target.
   */
  function CharacterMoved(t: Thirst, running: bool, now: int): (r: Thirst)
    ensures TargetRate(t, running) == t.waterDecayPerSecond ==> r == t
    ensures TargetRate(t, running) != t.waterDecayPerSecond ==>
      && r == t.(lastCalculatedWater := r.lastCalculatedWater, lastCalculationTime := now,
                 waterDecayPerSecond := TargetRate(t, running))
      && r.lastCalculatedWater == HungerAndThirstUtils.GetThirstForEntity(Some(t), now)
    ensures r.waterDecayPerSecond == TargetRate(t, running)
  {
    var expectedDecay := if running then t.sprintDecayPerSecond else t.normalDecayPerSecond;
    if expectedDecay != t.waterDecayPerSecond then
      t.(lastCalculatedWater := HungerAndThirstUtils.GetThirstForEntity(Some(t), now),
         lastCalculationTime := now,
         waterDecayPerSecond := expectedDecay)
    else
      t
  }

  /**
   After a movement event at `now`, a read at any later `later` is the water as of
   `now` less the decay at the new rate over `later - now` only, floored at zero:
   the new rate is never charged for time before the switch.
   */
  lemma SwitchChargesOnlyNewRate(t: Thirst, running: bool, now: int, later: int)
    requires t.waterDecayPerSecond >= 0.0
    requires now <= later
    ensures var r := CharacterMoved(t, running, now);
      HungerAndThirstUtils.GetThirstForEntity(Some(r), later)
        == LazyDecay.Rebuild(HungerAndThirstUtils.GetThirstForEntity(Some(t), now), now, r.waterDecayPerSecond, later)
  {
    var r := CharacterMoved(t, running, now);
    if r == t {
      LazyDecay.FreezeTransparent(t.lastCalculatedWater, t.lastCalculationTime, t.waterDecayPerSecond, now, later);
    }
  }

  /**
   Without the freeze the new rate would be charged retroactively: switching only
   the rate of water full at 0 when sprinting starts at 7000 would read 98.4 at
   8000, whereas the frozen switch reads 99.45.
   */
  lemma FreezeMatters()
    ensures var t := NewThirst().(lastCalculatedWater := 100.0);
      && HungerAndThirstUtils.GetThirstForEntity(Some(t.(waterDecayPerSecond := 0.2)), 8000) == 98.4
      && HungerAndThirstUtils.GetThirstForEntity(Some(CharacterMoved(t, true, 7000)), 8000) == 99.45
  {
  }

  /** The worked switch: from 0.05 to 0.2 per second at 7000, the water lost by 8000 is exactly 0.2. */
  lemma SwitchLossExample()
    ensures var t := NewThirst().(lastCalculatedWater := 100.0);
      var r := CharacterMoved(t, true, 7000);
      && r.waterDecayPerSecond == 0.2
      && r.lastCalculatedWater - HungerAndThirstUtils.GetThirstForEntity(Some(r), 8000) == 0.2
  {
    var t := NewThirst().(lastCalculatedWater := 100.0);
    var r := CharacterMoved(t, true, 7000);
    assert r.lastCalculatedWater == 99.65;
    LazyDecay.LossAfterSwitch(r.lastCalculatedWater, 7000, 0.2, 8000);
  }
}

=== FILE: thirst_component.dfy ===
/** The state record of the lazily decaying thirst resource, with its defaults. */
module ThirstComponent {
  import LazyDecay

  /**
   Per-entity thirst. `lastCalculatedWater` is the water value as of
   `lastCalculationTime` (ms); it decays at `waterDecayPerSecond`, which movement
   switches between `normalDecayPerSecond` and `sprintDecayPerSecond`.
   `sprintLossThreshold` is configuration that no system reads.
   */
  datatype Thirst = Thirst(
    maxWaterCapacity: real,
    lastCalculatedWater: real,
    lastCalculationTime: int,
    normalDecayPerSecond: real,
    sprintDecayPerSecond: real,
    waterDecayPerSecond: real,
    sprintLossThreshold: real)

  /** A freshly constructed component: empty, stamped at 0, decaying at the normal rate. */
  function NewThirst(): Thirst
  {
    Thirst(
      maxWaterCapacity := 100.0,
      lastCalculatedWater := 0.0,
      lastCalculationTime := 0,
      normalDecayPerSecond := 0.05,
      sprintDecayPerSecond := 0.2,
      waterDecayPerSecond := 0.05,
      sprintLossThreshold := 50.0)
  }

  /** The water value of `t` rebuilt as of `now`. */
  function Water(t: Thirst, now: int): real
  {
    LazyDecay.Rebuild(t.lastCalculatedWater, t.lastCalculationTime, t.waterDecayPerSecond, now)
  }

  /**
   The defaults: 0.05 per second walking and 0.2 sprinting, so sprinting drains
   strictly faster; a fresh component walks and reads empty from time 0 on.
   */
  lemma NewThirstDefaults(now: int)
    requires now >= 0
    ensures var t := NewThirst();
      && t.normalDecayPerSecond == 0.05 && t.sprintDecayPerSecond == 0.2
      && 0.0 < t.normalDecayPerSecond < t.sprintDecayPerSecond
      && Water(t, now) == 0.0
      && t.waterDecayPerSecond == t.normalDecayPerSecond
      && t.maxWaterCapacity == 100.0
  {
  }

  /**
   From the same stored value, a sprinting rate never leaves more water than the
   normal rate, and strictly less whenever time has passed and the sprint reading
   is still above zero.
   */
  lemma SprintDrainsFaster(t: Thirst, now: int)
    requires 0.0 <= t.normalDecayPerSecond < t.sprintDecayPerSecond
    requires t.lastCalculationTime <= now
    ensures var sprint := Water(t.(waterDecayPerSecond := t.sprintDecayPerSecond), now);
      var normal := Water(t.(waterDecayPerSecond := t.normalDecayPerSecond), now);
      && sprint <= normal
      && (t.lastCalculationTime < now && sprint > 0.0 ==> sprint < normal)
  {
    var span := (now - t.lastCalculationTime) as real;
    var ds := LazyDecay.Decay(t.sprintDecayPerSecond, t.lastCalculationTime, now);
    var dn := LazyDecay.Decay(t.normalDecayPerSecond, t.lastCalculationTime, now);
    assert span >= 0.0;
    assert t.sprintDecayPerSecond * span >= t.normalDecayPerSecond * span;
    assert ds >= dn;
    if span > 0.0 {
      assert t.sprintDecayPerSecond * span > t.normalDecayPerSecond * span;
      assert ds > dn;
    }
  }
}

=== FILE: wrappers.dfy ===
/** The optional value used for "this entity may or may not carry the component". */
module Wrappers {

  datatype Option<+T> = None | Some(value: T)
}
